=== FILE: README.md ===
# RatScanner Logger — a Dafny model

RatScanner's `Logger` appends timestamped text records to `Log.txt`. A record whose
write fails is not lost: it is kept in an in-memory backlog and retried by the next
flush, which runs at the start of every append and once more after a failed direct write
of the new record.
The logger also saves diagnostic images under a collision-free generated file name.

This project models, in Dafny:

- **the durable append log** (`durable_log.dfy`, module `DurableLog`): the state is the
  persisted log, the backlog and the number of write attempts made so far. The file
  system becomes an oracle `nat -> bool` that tells, for each write attempt by its
  number, whether the append succeeds. A failed write appends nothing.
  `ProcessBacklog` is an order-preserving partition of the backlog, and
  `AppendToLog` is: flush, format, write, and on failure push to the tail and flush again;
- **the record texts** (`records.dfy`, module `Records`): the line format
  `[<time>] > <content>\n`, the severity tags, and the error body with its 20-dash
  divider. Each comes with an inverse (`Parse`, `Classify`, `SplitErrorText`) and
  round-trip lemmas in both directions. The error body is recovered only when its message
  holds no line break, since the divider is found after the first one;
- **the public logging calls** (`logging.dfy`, module `Logging`): `LogInfo`,
  `LogWarning` (two records), `LogError` (one record) and `LogDebug` (gated by the
  debug flag), each as a function of the logger state;
- **the image file names** (`artifacts.dfy`, module `Artifacts`): `GetUniquePath` as
  the imperative search for the least free index over a finite set of existing file
  names, the debug gating of the image-saving calls, and the existence guard of
  `ClearDebugMats`.

A clock reading is a parameter of each append, since `LogWarning` appends twice and
reads the clock twice. So are the exception text (`None` when no exception is passed),
the current stack trace and the `RatConfig.LogDebug` flag. A directory is the set of
file names it holds.

## Model

| member | source | states |
|---|---|---|
| Records.Tag | RatScanner/Logger.cs:18-72 | each severity's tag opens with `[`, holds the closing `]` of the tag and ends with a space before the message |
| Records.TagsDisjoint | RatScanner/Logger.cs:18-72 | no severity's tag is a prefix of a body carrying another severity's tag |
| Records.ClassifyTagged | RatScanner/Logger.cs:18-72 | from any tagged body, the severity and the message are recovered exactly |
| Records.TaggedClassify | RatScanner/Logger.cs:18-72 | conversely, every body that classifies is exactly the tag followed by the message |
| Records.Classify | RatScanner/Logger.cs:18-72 | a recognised severity's tag is a prefix of the body |
| Records.ErrorText | RatScanner/Logger.cs:32-35 | the error text is the message, then the 25-character line break, 20-dash divider and indent, then the detail, each at its exact position |
| Records.SplitErrorText | RatScanner/Logger.cs:32-35 | a recovered message never holds a line break |
| Records.SplitErrorTextInverse | RatScanner/Logger.cs:32-35 | the message, when it has no line break, and the detail are recovered from the error text |
| Records.ErrorTextSplit | RatScanner/Logger.cs:32-35 | every text the splitter accepts is exactly the error text of the message and detail it returns |
| Records.ErrorTextInjective | RatScanner/Logger.cs:32-35 | two errors whose messages have no line break write the same text only when message and detail agree |
| Records.Format | RatScanner/Logger.cs:95 | a log line is exactly `[`, the time of day, `] > `, the content and a newline, each at its fixed position |
| Records.ParseFormat | RatScanner/Logger.cs:95 | a line formatted from a time of day without `]` parses back to the same time and content |
| Records.FormatParse | RatScanner/Logger.cs:95 | every line that parses is exactly the formatting of what it parses to |
| DurableLog.ProcessBacklog | RatScanner/Logger.cs:109-126 | the foreach loop makes one write attempt per entry, adds exactly the entries whose write succeeded to the log, in order (`Written`, a filter by `Select`), and makes the entries whose write failed, in order (`Kept`), the new backlog; the result is `Flush` |
| DurableLog.SelectSnoc | RatScanner/Logger.cs:113-123 | one more loop iteration extends the written or the failed entries by the current entry, according to its outcome |
| DurableLog.SelectPartition | RatScanner/Logger.cs:113-123 | the written and the failed entries together are the old backlog as a multiset: none lost, none doubled |
| DurableLog.SelectIsSubsequence | RatScanner/Logger.cs:113-123 | the written entries and the failed entries each keep their relative order from the backlog |
| DurableLog.SelectUniform | RatScanner/Logger.cs:113-123 | when every attempt of a pass has the same outcome, that outcome takes the whole backlog and the other takes nothing |
| DurableLog.FlushFilters | RatScanner/Logger.cs:111-125 | after a flush, the old log is a prefix of the new one, and the new backlog and the newly written lines are each a subsequence of the old backlog |
| DurableLog.FlushConserves | RatScanner/Logger.cs:113-123 | a flush keeps log plus backlog unchanged as a multiset: each old entry is either written or kept, never both and never dropped |
| DurableLog.FlushEmpty | RatScanner/Logger.cs:111-125 | a flush of an empty backlog makes no write attempt and leaves the log and the backlog unchanged |
| DurableLog.AppendToLog | RatScanner/Logger.cs:91-107 | an append makes at least one write attempt; the old log and then the lines written by the opening flush form a prefix of the resulting log, so they come before the new record |
| DurableLog.AppendConserves | RatScanner/Logger.cs:91-107 | log plus backlog gain exactly the new formatted record: nothing is lost or duplicated |
| DurableLog.AppendBacklogOrdered | RatScanner/Logger.cs:91-107 | after an append, the backlog is a subsequence of the old backlog followed by the new record: no reordering |
| DurableLog.AppendDirect | RatScanner/Logger.cs:93-99 | when the direct write succeeds, the record is the last line of the log, after the flushed entries, and the backlog is what the flush failed to write |
| DurableLog.AppendFallback | RatScanner/Logger.cs:101-105 | when the direct write fails, the record goes to the tail of the backlog before the second flush; it stays last if that flush fails on it too |
| DurableLog.AppendAllFail | RatScanner/Logger.cs:101-105 | when every write of the call fails, the log is untouched and the backlog grows by the record at its tail |
| DurableLog.AppendAllSucceed | RatScanner/Logger.cs:91-107 | when every write succeeds, the log gains the whole backlog and then the record, and the backlog ends empty |
| DurableLog.AppendAll | RatScanner/Logger.cs:91-107 | a run of appends makes at least one write attempt per call |
| DurableLog.AppendAllConserves | RatScanner/Logger.cs:91-107 | over a run of appends nothing written is removed, and log plus backlog gain exactly the run's records |
| DurableLog.AppendAllBacklogOrdered | RatScanner/Logger.cs:91-107 | after a run of appends, the backlog is a subsequence of the old backlog followed by the run's records in call order |
| DurableLog.AppendAllSplit | RatScanner/Logger.cs:91-107 | two runs of appends one after the other are the run of their concatenation |
| DurableLog.AppendAllFailGrows | RatScanner/Logger.cs:101-105 | while no write succeeds, M appends leave the log alone and grow the backlog by exactly M records, in call order |
| DurableLog.AppendAllSucceedDelivers | RatScanner/Logger.cs:91-126 | once every write succeeds, a non-empty run writes the old backlog and then every record in call order, and leaves the backlog empty |
| DurableLog.RecoveryPhases | RatScanner/Logger.cs:91-126 | appends made while the log is unwritable only buffer their records; once it is writable, the next run delivers the old backlog, the buffered records and the new ones, in order, and empties the backlog |
| DurableLog.MidCallRecoveryReorders | RatScanner/Logger.cs:91-126 | when the log becomes writable inside a call, after the opening flush failed on an older record, the new record is logged ahead of it: with the first three attempts failing, A, B, C end up logged as B, A, C, which differs from submission order, and the backlog ends empty |
| DurableLog.Recovery | RatScanner/Logger.cs:91-126 | if the log is unwritable for the first K calls and writable from then on, with at least one later call, the log ends up with every record once, in submission order, and the backlog ends empty |
| Logging.AppendTagged | RatScanner/Logger.cs:20 | appending a tagged body adds exactly its formatted line to log plus backlog, removing nothing |
| Logging.LogInfo | RatScanner/Logger.cs:18-21 | log plus backlog gain exactly the `[Info]  ` line, and nothing written is removed |
| Logging.LogWarning | RatScanner/Logger.cs:23-27 | log plus backlog gain exactly two lines, the `[Warning] ` line and the detail line, with two or more write attempts |
| Logging.WarningOrder | RatScanner/Logger.cs:23-27 | when every write succeeds, the warning line is written just before the detail line, after the old backlog |
| Logging.LogError | RatScanner/Logger.cs:29-36 | log plus backlog gain exactly one `[Error] ` line holding the message, the divider and the detail |
| Logging.LogDebug | RatScanner/Logger.cs:69-72 | with debug logging off the state is unchanged and no write is attempted; with it on, exactly the `[Debug] ` line is gained |
| Logging.TaggedLineReadBack | RatScanner/Logger.cs:95 | a tagged line read back yields its time of day, its severity and its message |
| Logging.ErrorLineReadBack | RatScanner/Logger.cs:29-36 | an error line read back yields its time of day, the `Error` severity, the message and the detail (the exception's text, else the stack trace), when the message has no line break |
| Artifacts.Sanitise | RatScanner/Logger.cs:76 | the sanitised name has the same length and no space: spaces become `_` and every other character is kept |
| Artifacts.SanitiseClean | RatScanner/Logger.cs:76 | a name without spaces is unchanged |
| Artifacts.SanitiseIdempotent | RatScanner/Logger.cs:76 | sanitising twice is sanitising once |
| Artifacts.Decimal | RatScanner/Logger.cs:79 | the written index is a non-empty string of digits without a leading zero |
| Artifacts.DecimalValue | RatScanner/Logger.cs:79 | reading the written index back gives the index |
| Artifacts.CandidateInjective | RatScanner/Logger.cs:79-84 | distinct indices give distinct file names |
| Artifacts.LeastFreeUnique | RatScanner/Logger.cs:78-85 | there is at most one least free index |
| Artifacts.GetUniquePath | RatScanner/Logger.cs:74-89 | the result is the `Candidate` name (sanitised name, decimal index, extension) of the least index whose name is not an existing file; its name part has no space and it ends with the extension; the loop terminates for every finite set of files |
| Artifacts.ClaimAdvances | RatScanner/Logger.cs:78-85 | once the chosen file exists, the next search picks a later index, so two saves never collide |
| Artifacts.ReleaseReuses | RatScanner/Logger.cs:78-85 | deleting the file of a taken index makes that index the next one chosen |
| Artifacts.SaveImage | RatScanner/Logger.cs:48-67 | when saving is off nothing changes; when it is on, exactly one new file is added, under the least free `.png` name |
| Artifacts.ClearDebugMats | RatScanner/Logger.cs:148-157 | when the directory is absent nothing happens; otherwise exactly the matching files are deleted |
| Artifacts.ClearIdempotent | RatScanner/Logger.cs:148-157 | clearing a second time deletes nothing more |

## Left out

- The clock (`DateTime.UtcNow`): the time of day of each append is a parameter. Its text
  (a `TimeSpan` rendering such as `13:04:05.1234567`) contains no `]`, which is what
  `Records.ParseFormat` requires.
- `Thread.Sleep(250)` before the retry flush, and `Debug.WriteLine` in `AppendToLogRaw`:
  neither changes the log or the backlog. The effect of the delay, a better chance of
  success, is part of what the oracle may answer.
- Partial writes: a failed `File.AppendAllText` is assumed to append nothing. A write
  that fails after writing part of the text would leave a fragment in the file and
  duplicate it on retry, and the model does not cover that.
- Text encoding and record boundaries: the log holds one element per appended text, and
  the UTF-8 bytes are not modelled. `Log.txt` is the concatenation of those texts and does
  not mark where a record ends: an error record holds three line breaks, and a message,
  exception text or stack trace may hold more. So `Records.ParseFormat`,
  `Logging.TaggedLineReadBack` and `Logging.ErrorLineReadBack` read back one record taken on
  its own, not the file.
- Concurrency: the static backlog has no lock. Only a single writer is modelled.
- `LogError` after the write (`MessageBox.Show`, `CreateGitHubIssue` with
  `WebUtility.UrlEncode`, `ApiManager` and `Process.Start`, `Environment.Exit`): these are
  UI, process control and calls into other code. `ReadAll`, which only feeds the issue
  body, is left out with them.
- `Environment.Exit(0)` at the end of `LogError` ends the process, and with it the
  in-memory backlog. Entries still pending then are never written, and the error record
  itself is among them if its writes failed. The model stops before the exit, so
  `Logging.LogError` states only what reaches log plus backlog.
- `Clear` and `ClearMats`: these are direct `File.Delete` / `Directory.GetFiles` calls
  without logic of their own.
- `Artifacts.ClearDebugMats`: the `*.png` pattern of `Directory.GetFiles` is a predicate
  parameter, and its matching rules are not modelled. Deletions are assumed to succeed: a
  `File.Delete` that throws (a locked or read-only file) ends the loop and leaves the later
  matches on disk, which the model does not cover.
- `Path.Combine` and `Directory.CreateDirectory` in `GetUniquePath`: a directory is the
  set of file names in it, and the result is the file name within that directory.
  `File.Exists` is false for a sub-directory, so the set holds the names of files only.
- `Artifacts.GetUniquePath`: the index is unbounded, and C#'s 32-bit `int` overflow after
  2^31 existing files is not modelled. File names are compared exactly, while `File.Exists`
  on Windows ignores case: after saving `Mat0.png`, a save named `mat` finds `mat0.png`
  taken and picks `mat1.png`, where the model treats `mat0.png` as a new, free name. So
  `Artifacts.ClaimAdvances` and `Artifacts.SaveImage` hold per exact spelling; on a
  case-insensitive file system two names that differ only in case denote one file.
- The image bytes (`Mat.SaveImage`, `Bitmap.Save`): saving only adds the file name to the directory.
- `RatConfig` (`LogDebug`, the two paths, `Version`): the flag is a parameter, and the
  directories are the file sets passed in.
- `DurableLog.Recovery` and `DurableLog.RecoveryPhases` promise submission order in the log
  only when writability changes between calls. When it changes inside a call, after the
  opening flush has failed on an older record, the direct write logs the new record ahead
  of it (`DurableLog.MidCallRecoveryReorders`: A, B, C are logged as B, A, C). The backlog
  itself always stays in submission order (`DurableLog.AppendAllBacklogOrdered`).
- `DurableLog.Recovery` needs at least one call after the log becomes writable. If the log
  stays unwritable through the last call, the records are still in the backlog
  (`DurableLog.AppendAllFailGrows`), not in the file.

=== FILE: artifacts.dfy ===
/**
 * The diagnostic image files of RatScanner's Logger: the collision-free file
 * name GetUniquePath picks for a new image, the debug switch that guards the
 * debug images, and the existence guard of ClearDebugMats.
 *
 * A directory is modelled by the set of file names it holds (finite, as every
 * directory is); the image bytes themselves are not modelled, saving an image
 * only adds its file name to the directory.
 */
module Artifacts {
  import opened Wrappers

  /** The extension every image is saved with. */
  const Png: string := ".png"

  /** String.Replace(' ', '_'): every space becomes an underscore, every other character stays. */
  function Sanitise(name: string): (r: string)
    ensures |r| == |name|
    ensures ' ' !in r
    ensures forall i :: 0 <= i < |name| && name[i] != ' ' ==> r[i] == name[i]
    ensures forall i :: 0 <= i < |name| && name[i] == ' ' ==> r[i] == '_'
  {
    seq(|name|, i requires 0 <= i < |name| => if name[i] == ' ' then '_' else name[i])
  }

  /** A name without spaces is left as it is. */
  lemma SanitiseClean(name: string)
    requires ' ' !in name
    ensures Sanitise(name) == name
  {
  }

  /** Sanitising twice is sanitising once. */
  lemma SanitiseIdempotent(name: string)
    ensures Sanitise(Sanitise(name)) == Sanitise(name)
  {
  }

  /** The character of a decimal digit. */
  function Digit(d: nat): (c: char)
    requires d < 10
    ensures '0' <= c <= '9'
  {
    "0123456789"[d]
  }

  /** The value of a digit character (0 for any other character). */
  function DigitValue(c: char): nat
  {
    if '0' <= c <= '9' then (c as int - '0' as int) as nat else 0
  }

  /** The decimal text of a non-negative index, as the index is written into the file name. */
  function Decimal(n: nat): (r: string)
    ensures |r| >= 1
    ensures forall i :: 0 <= i < |r| ==> '0' <= r[i] <= '9'
    ensures |r| > 1 ==> r[0] != '0'
    decreases n
  {
    if n < 10 then [Digit(n)] else Decimal(n / 10) + [Digit(n % 10)]
  }

  /** The number a string of digits denotes, most significant digit first. */
  function Value(s: string): nat
    decreases |s|
  {
    if s == [] then 0 else 10 * Value(s[..|s| - 1]) + DigitValue(s[|s| - 1])
  }

  /** Reading a written index back gives the index. */
  lemma {:induction false} DecimalValue(n: nat)
    ensures Value(Decimal(n)) == n
    decreases n
  {
    if n < 10 {
      assert Decimal(n)[..0] == [];
    } else {
      var d := Decimal(n);
      assert d == Decimal(n / 10) + [Digit(n % 10)];
      assert d[..|d| - 1] == Decimal(n / 10);
      assert DigitValue(d[|d| - 1]) == n % 10;
      DecimalValue(n / 10);
      assert Value(d) == 10 * (n / 10) + n % 10;
    }
  }

  /** The file name tried for index `i`: the sanitised name, the index, the extension. */
  function Candidate(stem: string, i: nat, ext: string): string
  {
    stem + Decimal(i) + ext
  }

  /** Distinct indices give distinct file names, so the search never tries a name twice. */
  lemma CandidateInjective(stem: string, i: nat, j: nat, ext: string)
    requires i != j
    ensures Candidate(stem, i, ext) != Candidate(stem, j, ext)
  {
    var a := Candidate(stem, i, ext);
    var b := Candidate(stem, j, ext);
    if a == b {
      assert |Decimal(i)| == |Decimal(j)|;
      assert a[|stem|..|stem| + |Decimal(i)|] == Decimal(i);
      assert b[|stem|..|stem| + |Decimal(j)|] == Decimal(j);
      DecimalValue(i);
      DecimalValue(j);
      assert false;
    }
  }

  /** `i` is the least index whose file name is not in `existing`. */
  predicate IsLeastFree(existing: set<string>, stem: string, ext: string, i: nat)
  {
    && Candidate(stem, i, ext) !in existing
    && forall j: nat :: j < i ==> Candidate(stem, j, ext) in existing
  }

  /** The least free index is unique. */
  lemma LeastFreeUnique(existing: set<string>, stem: string, ext: string, i: nat, k: nat)
    requires IsLeastFree(existing, stem, ext, i) && IsLeastFree(existing, stem, ext, k)
    ensures i == k
  {
  }

  /**
   * GetUniquePath: count up from index 0 until the candidate name is not an
   * existing file. The names tried so far are all existing files and all
   * distinct, so the set of untried existing files shrinks every round.
   */
  method GetUniquePath(existing: set<string>, name: string, ext: string) returns (path: string, index: nat)
    ensures IsLeastFree(existing, Sanitise(name), ext, index)
    ensures path == Candidate(Sanitise(name), index, ext)
    ensures path !in existing
    ensures |path| > |name| && ' ' !in path[..|name|]
    ensures |path| >= |ext| && path[|path| - |ext|..] == ext
  {
    var stem := Sanitise(name);
    index := 0;
    path := Candidate(stem, index, ext);
    ghost var tried: set<string> := {};
    while path in existing
      invariant path == Candidate(stem, index, ext)
      invariant forall j: nat :: j < index ==> Candidate(stem, j, ext) in existing
      invariant tried == set j: nat | j < index :: Candidate(stem, j, ext)
      decreases existing - tried
    {
      forall j: nat | j < index
        ensures Candidate(stem, j, ext) != path
      {
        CandidateInjective(stem, j, index, ext);
      }
      assert path !in tried;
      tried := tried + {path};
      index := index + 1;
      path := Candidate(stem, index, ext);
      assert tried == set j: nat | j < index :: Candidate(stem, j, ext);
    }
    assert path[..|name|] == stem;
    assert path[|path| - |ext|..] == ext;
  }

  /** Saving into the index just found makes the next search return a later index, so two saves never collide. */
  lemma ClaimAdvances(existing: set<string>, stem: string, ext: string, i: nat, k: nat)
    requires IsLeastFree(existing, stem, ext, i)
    requires IsLeastFree(existing + {Candidate(stem, i, ext)}, stem, ext, k)
    ensures k > i
    ensures Candidate(stem, k, ext) != Candidate(stem, i, ext)
  {
  }

  /** Deleting the file of a taken index makes that index the next one chosen again. */
  lemma ReleaseReuses(existing: set<string>, stem: string, ext: string, i: nat, j: nat)
    requires IsLeastFree(existing, stem, ext, i)
    requires j < i
    ensures IsLeastFree(existing - {Candidate(stem, j, ext)}, stem, ext, j)
  {
    forall l: nat | l < j
      ensures Candidate(stem, l, ext) in existing - {Candidate(stem, j, ext)}
    {
      CandidateInjective(stem, l, j, ext);
    }
  }

  /**
   * LogMat, LogDebugMat and LogDebugBitmap: when saving is switched on, the
   * image is saved as a `.png` under the least free name; the debug variants
   * are switched by the debug flag, LogMat always saves.
   */
  method SaveImage(enabled: bool, files: set<string>, name: string) returns (after: set<string>, saved: Option<string>)
    ensures !enabled ==> after == files && saved == None
    ensures enabled ==> saved.Some? && saved.value !in files && after == files + {saved.value}
    ensures enabled ==> exists i: nat :: IsLeastFree(files, Sanitise(name), Png, i) && saved.value == Candidate(Sanitise(name), i, Png)
  {
    if enabled {
      var path, index := GetUniquePath(files, name, Png);
      after := files + {path};
      saved := Some(path);
    } else {
      after := files;
      saved := None;
    }
  }

  /**
   * ClearDebugMats: when the debug directory does not exist (None), nothing
   * happens; otherwise every file the pattern matches is deleted and the
   * others stay.
   */
  function ClearDebugMats(dir: Option<set<string>>, matches: string -> bool): (r: Option<set<string>>)
    ensures dir.None? ==> r == dir
    ensures dir.Some? ==> r.Some? && r.value <= dir.value
    ensures dir.Some? ==> forall f :: f in r.value ==> !matches(f)
    ensures dir.Some? ==> forall f :: f in dir.value && !matches(f) ==> f in r.value
  {
    match dir
    case None => None
    case Some(files) => Some(set f | f in files && !matches(f))
  }

  /** Clearing a second time deletes nothing more. */
  lemma ClearIdempotent(dir: Option<set<string>>, matches: string -> bool)
    ensures ClearDebugMats(ClearDebugMats(dir, matches), matches) == ClearDebugMats(dir, matches)
  {
    if dir.Some? {
      var once := ClearDebugMats(dir, matches).value;
      assert ClearDebugMats(Some(once), matches).value == once;
    }
  }
}

=== FILE: durable_log.dfy ===
/**
 * The durable append log of RatScanner's Logger: every record is appended to
 * the log file, and a record whose write fails is kept in an in-memory
 * backlog and retried by the next flush.
 *
 * The file system is replaced by an oracle. Write attempts are numbered in
 * the order they are made, the oracle says of each attempt number whether
 * that write succeeds, and a failed write appends nothing. The state carries
 * the number of attempts made so far, so "no write attempted" is visible in
 * the state itself.
 */
module DurableLog {
  import opened Records

  /** Outcome of each write attempt, by attempt number: true means the append succeeded. */
  type Oracle = nat -> bool

  /** The persisted log (one element per appended text), the backlog, and the attempts made so far. */
  datatype Logger = Logger(log: seq<string>, backlog: seq<string>, attempts: nat)

  /**
   * The entries of `entries`, in order, whose write attempt has outcome
   * `outcome`, when entry `i` is attempted as attempt number `first + i`.
   */
  function Select(entries: seq<string>, first: nat, ok: Oracle, outcome: bool): (r: seq<string>)
    decreases |entries|
  {
    if entries == [] then []
    else (if ok(first) == outcome then [entries[0]] else []) + Select(entries[1..], first + 1, ok, outcome)
  }

  /** The entries a pass over `entries` starting at attempt `first` writes to the log. */
  function Written(entries: seq<string>, first: nat, ok: Oracle): seq<string>
  {
    Select(entries, first, ok, true)
  }

  /** The entries a pass over `entries` starting at attempt `first` fails to write. */
  function Kept(entries: seq<string>, first: nat, ok: Oracle): seq<string>
  {
    Select(entries, first, ok, false)
  }

  /** `a` is `b` with some elements left out, the rest in their original order. */
  ghost predicate IsSubsequence(a: seq<string>, b: seq<string>)
    decreases |b|
  {
    if a == [] then true
    else if b == [] then false
    else (a[0] == b[0] && IsSubsequence(a[1..], b[1..])) || IsSubsequence(a, b[1..])
  }

  /** Selecting from a sequence extended by one entry extends the selection by at most that entry. */
  lemma {:induction false} SelectSnoc(entries: seq<string>, x: string, first: nat, ok: Oracle, outcome: bool)
    ensures Select(entries + [x], first, ok, outcome)
         == Select(entries, first, ok, outcome) + (if ok(first + |entries|) == outcome then [x] else [])
    decreases |entries|
  {
    if entries == [] {
      assert entries + [x] == [x];
    } else {
      var head := if ok(first) == outcome then [entries[0]] else [];
      var tail := if ok(first + |entries|) == outcome then [x] else [];
      assert (entries + [x])[0] == entries[0];
      assert (entries + [x])[1..] == entries[1..] + [x];
      calc {
        Select(entries + [x], first, ok, outcome);
        head + Select(entries[1..] + [x], first + 1, ok, outcome);
        { SelectSnoc(entries[1..], x, first + 1, ok, outcome); }
        head + (Select(entries[1..], first + 1, ok, outcome) + tail);
        (head + Select(entries[1..], first + 1, ok, outcome)) + tail;
        Select(entries, first, ok, outcome) + tail;
      }
    }
  }

  /** Conservation: each entry is selected by exactly one of the two outcomes, so nothing is lost or doubled. */
  lemma {:induction false} SelectPartition(entries: seq<string>, first: nat, ok: Oracle)
    ensures multiset(Written(entries, first, ok)) + multiset(Kept(entries, first, ok)) == multiset(entries)
    decreases |entries|
  {
    if entries != [] {
      SelectPartition(entries[1..], first + 1, ok);
      assert entries == [entries[0]] + entries[1..];
    }
  }

  /** A selection keeps the relative order of the entries it selects. */
  lemma {:induction false} SelectIsSubsequence(entries: seq<string>, first: nat, ok: Oracle, outcome: bool)
    ensures IsSubsequence(Select(entries, first, ok, outcome), entries)
    decreases |entries|
  {
    if entries != [] {
      var rest := Select(entries[1..], first + 1, ok, outcome);
      SelectIsSubsequence(entries[1..], first + 1, ok, outcome);
      if ok(first) == outcome {
        assert Select(entries, first, ok, outcome) == [entries[0]] + rest;
        assert ([entries[0]] + rest)[1..] == rest;
      } else {
        assert Select(entries, first, ok, outcome) == rest;
        if rest != [] {
          assert IsSubsequence(rest, entries[1..]);
        }
      }
    }
  }

  /** Every sequence is a subsequence of itself. */
  lemma {:induction false} SubsequenceRefl(a: seq<string>)
    ensures IsSubsequence(a, a)
    decreases |a|
  {
    if a != [] {
      SubsequenceRefl(a[1..]);
    }
  }

  /** Putting more entries in front of the larger sequence keeps a subsequence. */
  lemma {:induction false} SubsequencePrepend(a: seq<string>, b: seq<string>, c: seq<string>)
    requires IsSubsequence(a, c)
    ensures IsSubsequence(a, b + c)
    decreases |b|
  {
    if b != [] && a != [] {
      SubsequencePrepend(a, b[1..], c);
      assert (b + c)[1..] == b[1..] + c;
    } else if b == [] {
      assert b + c == c;
    }
  }

  /** A subsequence of one is a subsequence of a longer one with anything after it. */
  lemma {:induction false} SubsequenceAppend(a: seq<string>, b: seq<string>, c: seq<string>)
    requires IsSubsequence(a, b)
    ensures IsSubsequence(a, b + c)
    decreases |b|
  {
    if a != [] {
      assert (b + c)[0] == b[0];
      assert (b + c)[1..] == b[1..] + c;
      if a[0] == b[0] && IsSubsequence(a[1..], b[1..]) {
        SubsequenceAppend(a[1..], b[1..], c);
      } else {
        SubsequenceAppend(a, b[1..], c);
      }
    }
  }

  /** The same entries added at the end of both keep a subsequence. */
  lemma {:induction false} SubsequenceSameSuffix(a: seq<string>, b: seq<string>, c: seq<string>)
    requires IsSubsequence(a, b)
    ensures IsSubsequence(a + c, b + c)
    decreases |b|
  {
    if a == [] {
      SubsequenceRefl(c);
      SubsequencePrepend(c, b, c);
      assert a + c == c;
    } else {
      assert (a + c)[0] == a[0] && (a + c)[1..] == a[1..] + c;
      assert (b + c)[0] == b[0] && (b + c)[1..] == b[1..] + c;
      if a[0] == b[0] && IsSubsequence(a[1..], b[1..]) {
        SubsequenceSameSuffix(a[1..], b[1..], c);
      } else {
        SubsequenceSameSuffix(a, b[1..], c);
      }
    }
  }

  /** A subsequence of a subsequence is a subsequence. */
  lemma {:induction false} SubsequenceTrans(a: seq<string>, b: seq<string>, c: seq<string>)
    requires IsSubsequence(a, b) && IsSubsequence(b, c)
    ensures IsSubsequence(a, c)
    decreases |c|
  {
    if a != [] {
      if b[0] == c[0] && IsSubsequence(b[1..], c[1..]) {
        if a[0] == b[0] && IsSubsequence(a[1..], b[1..]) {
          SubsequenceTrans(a[1..], b[1..], c[1..]);
        } else {
          SubsequenceTrans(a, b[1..], c[1..]);
        }
      } else {
        SubsequenceTrans(a, b, c[1..]);
      }
    }
  }

  /** When every attempt in the pass has outcome `outcome`, the whole sequence is selected. */
  lemma {:induction false} SelectUniform(entries: seq<string>, first: nat, ok: Oracle, outcome: bool)
    requires forall i :: first <= i < first + |entries| ==> ok(i) == outcome
    ensures Select(entries, first, ok, outcome) == entries
    ensures Select(entries, first, ok, !outcome) == []
    decreases |entries|
  {
    if entries != [] {
      SelectUniform(entries[1..], first + 1, ok, outcome);
      assert entries == [entries[0]] + entries[1..];
    }
  }

  /**
   * ProcessBacklog: one pass over the backlog, attempting each entry in turn;
   * written entries go to the log, failed ones form the new backlog.
   */
  function Flush(s: Logger, ok: Oracle): Logger
  {
    Logger(s.log + Written(s.backlog, s.attempts, ok),
           Kept(s.backlog, s.attempts, ok),
           s.attempts + |s.backlog|)
  }

  /**
   * ProcessBacklog as the loop it is: a fresh list collects the entries whose
   * write fails, and replaces the backlog at the end.
   */
  method ProcessBacklog(s: Logger, ok: Oracle) returns (log: seq<string>, newBacklog: seq<string>, attempts: nat)
    ensures log == s.log + Written(s.backlog, s.attempts, ok)
    ensures newBacklog == Kept(s.backlog, s.attempts, ok)
    ensures attempts == s.attempts + |s.backlog|
    ensures Logger(log, newBacklog, attempts) == Flush(s, ok)
  {
    log := s.log;
    newBacklog := [];
    attempts := s.attempts;
    var i := 0;
    while i < |s.backlog|
      invariant 0 <= i <= |s.backlog|
      invariant attempts == s.attempts + i
      invariant log == s.log + Written(s.backlog[..i], s.attempts, ok)
      invariant newBacklog == Kept(s.backlog[..i], s.attempts, ok)
    {
      var text := s.backlog[i];
      assert s.backlog[..i + 1] == s.backlog[..i] + [text];
      SelectSnoc(s.backlog[..i], text, s.attempts, ok, true);
      SelectSnoc(s.backlog[..i], text, s.attempts, ok, false);
      if ok(attempts) {
        log := log + [text];
      } else {
        newBacklog := newBacklog + [text];
      }
      attempts := attempts + 1;
      i := i + 1;
    }
    assert s.backlog[..i] == s.backlog;
  }

  /** The flush filter: the new backlog is the failed entries in their old order, the log gains the rest. */
  lemma FlushFilters(s: Logger, ok: Oracle)
    ensures s.log <= Flush(s, ok).log
    ensures IsSubsequence(Flush(s, ok).backlog, s.backlog)
    ensures IsSubsequence(Flush(s, ok).log[|s.log|..], s.backlog)
    ensures forall x :: x in Flush(s, ok).backlog ==> x in s.backlog
  {
    var r := Flush(s, ok);
    SelectIsSubsequence(s.backlog, s.attempts, ok, false);
    SelectIsSubsequence(s.backlog, s.attempts, ok, true);
    assert r.log[|s.log|..] == Written(s.backlog, s.attempts, ok);
    SelectPartition(s.backlog, s.attempts, ok);
    forall x | x in r.backlog
      ensures x in s.backlog
    {
      assert x in multiset(r.backlog);
      assert x in multiset(s.backlog);
    }
  }

  /** Flush conservation: every old backlog entry is either written or retained, never both, never dropped. */
  lemma FlushConserves(s: Logger, ok: Oracle)
    ensures multiset(Flush(s, ok).log) + multiset(Flush(s, ok).backlog) == multiset(s.log) + multiset(s.backlog)
  {
    SelectPartition(s.backlog, s.attempts, ok);
  }

  /** Flushing an empty backlog attempts no write and changes nothing. */
  lemma FlushEmpty(s: Logger, ok: Oracle)
    requires s.backlog == []
    ensures Flush(s, ok) == s
  {
  }

  /**
   * AppendToLog: flush the backlog, format the record, try to write it; on
   * failure put it at the tail of the backlog and flush once more.
   */
  function AppendToLog(s: Logger, e: Entry, ok: Oracle): (r: Logger)
    ensures r.attempts > s.attempts
    ensures s.log <= r.log
    ensures s.log + Written(s.backlog, s.attempts, ok) <= r.log
  {
    var s1 := Flush(s, ok);
    var text := Format(e);
    if ok(s1.attempts) then
      Logger(s1.log + [text], s1.backlog, s1.attempts + 1)
    else
      Flush(Logger(s1.log, s1.backlog + [text], s1.attempts + 1), ok)
  }

  /** No record is lost or duplicated by a call: log and backlog together gain exactly the new record. */
  lemma AppendConserves(s: Logger, e: Entry, ok: Oracle)
    ensures var r := AppendToLog(s, e, ok);
            multiset(r.log) + multiset(r.backlog) == multiset(s.log) + multiset(s.backlog) + multiset{Format(e)}
  {
    var text := Format(e);
    var s1 := Flush(s, ok);
    FlushConserves(s, ok);
    if ok(s1.attempts) {
      assert AppendToLog(s, e, ok) == Logger(s1.log + [text], s1.backlog, s1.attempts + 1);
      assert multiset(s1.log + [text]) == multiset(s1.log) + multiset{text};
    } else {
      var s2 := Logger(s1.log, s1.backlog + [text], s1.attempts + 1);
      assert AppendToLog(s, e, ok) == Flush(s2, ok);
      FlushConserves(s2, ok);
      assert multiset(s2.backlog) == multiset(s1.backlog) + multiset{text};
    }
  }

  /** A call keeps the backlog in submission order: it is a subsequence of the old backlog followed by the new record. */
  lemma AppendBacklogOrdered(s: Logger, e: Entry, ok: Oracle)
    ensures IsSubsequence(AppendToLog(s, e, ok).backlog, s.backlog + [Format(e)])
  {
    var s1 := Flush(s, ok);
    var text := Format(e);
    SelectIsSubsequence(s.backlog, s.attempts, ok, false);
    if ok(s1.attempts) {
      SubsequenceAppend(s1.backlog, s.backlog, [text]);
    } else {
      var s2 := Logger(s1.log, s1.backlog + [text], s1.attempts + 1);
      SelectIsSubsequence(s2.backlog, s2.attempts, ok, false);
      SubsequenceSameSuffix(s1.backlog, s.backlog, [text]);
      SubsequenceTrans(Flush(s2, ok).backlog, s2.backlog, s.backlog + [text]);
    }
  }

  /** When the direct write succeeds, the new record is the last line of the log and comes after everything flushed. */
  lemma AppendDirect(s: Logger, e: Entry, ok: Oracle)
    requires ok(s.attempts + |s.backlog|)
    ensures AppendToLog(s, e, ok).log == s.log + Written(s.backlog, s.attempts, ok) + [Format(e)]
    ensures AppendToLog(s, e, ok).backlog == Kept(s.backlog, s.attempts, ok)
  {
  }

  /**
   * When the direct write fails, the record goes to the tail of the backlog
   * that the second flush then works through: the new backlog is the
   * failures of that flush, the record last if it failed again.
   */
  lemma AppendFallback(s: Logger, e: Entry, ok: Oracle)
    requires !ok(s.attempts + |s.backlog|)
    ensures var pending := Kept(s.backlog, s.attempts, ok) + [Format(e)];
            var second := s.attempts + |s.backlog| + 1;
            && AppendToLog(s, e, ok).log == s.log + Written(s.backlog, s.attempts, ok) + Written(pending, second, ok)
            && AppendToLog(s, e, ok).backlog == Kept(pending, second, ok)
            && (!ok(second + |pending| - 1) ==>
                  var b := AppendToLog(s, e, ok).backlog; |b| > 0 && b[|b| - 1] == Format(e))
  {
    var pending := Kept(s.backlog, s.attempts, ok) + [Format(e)];
    var second := s.attempts + |s.backlog| + 1;
    SelectSnoc(Kept(s.backlog, s.attempts, ok), Format(e), second, ok, false);
  }

  /** When every write of the call fails, the log is untouched and the record joins the tail of the backlog. */
  lemma AppendAllFail(s: Logger, e: Entry, ok: Oracle)
    requires forall i :: s.attempts <= i < AppendToLog(s, e, ok).attempts ==> !ok(i)
    ensures AppendToLog(s, e, ok).log == s.log
    ensures AppendToLog(s, e, ok).backlog == s.backlog + [Format(e)]
  {
    var s1 := Flush(s, ok);
    var s2 := Logger(s1.log, s1.backlog + [Format(e)], s1.attempts + 1);
    assert !ok(s1.attempts);
    assert AppendToLog(s, e, ok) == Flush(s2, ok);
    SelectUniform(s.backlog, s.attempts, ok, false);
    assert s1.log == s.log + [] && s1.backlog == s.backlog;
    assert Flush(s2, ok).attempts == s.attempts + 2 * |s.backlog| + 2;
    SelectUniform(s2.backlog, s2.attempts, ok, false);
    assert Flush(s2, ok).log == s.log + [];
  }

  /** When every write from now on succeeds, the call drains the backlog and then writes the record. */
  lemma AppendAllSucceed(s: Logger, e: Entry, ok: Oracle)
    requires forall i :: i >= s.attempts ==> ok(i)
    ensures AppendToLog(s, e, ok).log == s.log + s.backlog + [Format(e)]
    ensures AppendToLog(s, e, ok).backlog == []
  {
    SelectUniform(s.backlog, s.attempts, ok, true);
  }

  /** The formatted lines of a sequence of entries. */
  function Lines(es: seq<Entry>): seq<string>
  {
    if es == [] then [] else [Format(es[0])] + Lines(es[1..])
  }

  /** The lines of two batches are the lines of the first followed by the lines of the second. */
  lemma {:induction false} LinesAppend(a: seq<Entry>, b: seq<Entry>)
    ensures Lines(a + b) == Lines(a) + Lines(b)
    decreases |a|
  {
    if a == [] {
      assert a + b == b;
    } else {
      assert (a + b)[0] == a[0];
      assert (a + b)[1..] == a[1..] + b;
      LinesAppend(a[1..], b);
    }
  }

  /** A run of AppendToLog calls, one per entry, in order. */
  function AppendAll(s: Logger, es: seq<Entry>, ok: Oracle): (r: Logger)
    ensures r.attempts >= s.attempts + |es|
    decreases |es|
  {
    if es == [] then s
    else AppendAll(AppendToLog(s, es[0], ok), es[1..], ok)
  }

  /** Over any run of calls, log and backlog together gain exactly the run's records. */
  lemma {:induction false} AppendAllConserves(s: Logger, es: seq<Entry>, ok: Oracle)
    ensures var r := AppendAll(s, es, ok);
            && s.log <= r.log
            && multiset(r.log) + multiset(r.backlog) == multiset(s.log) + multiset(s.backlog) + multiset(Lines(es))
    decreases |es|
  {
    if es != [] {
      var s1 := AppendToLog(s, es[0], ok);
      AppendConserves(s, es[0], ok);
      AppendAllConserves(s1, es[1..], ok);
      assert Lines(es) == [Format(es[0])] + Lines(es[1..]);
    }
  }

  /** Over any run of calls the backlog stays in submission order. */
  lemma {:induction false} AppendAllBacklogOrdered(s: Logger, es: seq<Entry>, ok: Oracle)
    ensures IsSubsequence(AppendAll(s, es, ok).backlog, s.backlog + Lines(es))
    decreases |es|
  {
    if es == [] {
      SubsequenceRefl(s.backlog);
      assert s.backlog + Lines(es) == s.backlog;
    } else {
      var s1 := AppendToLog(s, es[0], ok);
      var rest := Lines(es[1..]);
      AppendAllBacklogOrdered(s1, es[1..], ok);
      AppendBacklogOrdered(s, es[0], ok);
      SubsequenceSameSuffix(s1.backlog, s.backlog + [Format(es[0])], rest);
      SubsequenceTrans(AppendAll(s1, es[1..], ok).backlog, s1.backlog + rest, s.backlog + [Format(es[0])] + rest);
      assert Lines(es) == [Format(es[0])] + rest;
      Regroup([], s.backlog, [Format(es[0])], rest);
      assert s.backlog + [Format(es[0])] + rest == s.backlog + Lines(es);
      assert AppendAll(s, es, ok) == AppendAll(s1, es[1..], ok);
    }
  }

  /** Running two batches one after the other is running their concatenation. */
  lemma {:induction false} AppendAllSplit(s: Logger, a: seq<Entry>, b: seq<Entry>, ok: Oracle)
    ensures AppendAll(s, a + b, ok) == AppendAll(AppendAll(s, a, ok), b, ok)
    decreases |a|
  {
    if a == [] {
      assert a + b == b;
    } else {
      var s1 := AppendToLog(s, a[0], ok);
      assert (a + b)[0] == a[0];
      assert (a + b)[1..] == a[1..] + b;
      calc {
        AppendAll(s, a + b, ok);
        AppendAll(s1, a[1..] + b, ok);
        { AppendAllSplit(s1, a[1..], b, ok); }
        AppendAll(AppendAll(s1, a[1..], ok), b, ok);
      }
    }
  }

  /** While the log cannot be written, M calls leave the log alone and grow the backlog by exactly M records, in call order. */
  lemma {:induction false} AppendAllFailGrows(s: Logger, es: seq<Entry>, ok: Oracle)
    requires forall i :: s.attempts <= i < AppendAll(s, es, ok).attempts ==> !ok(i)
    ensures AppendAll(s, es, ok).log == s.log
    ensures AppendAll(s, es, ok).backlog == s.backlog + Lines(es)
    ensures |AppendAll(s, es, ok).backlog| == |s.backlog| + |es|
    decreases |es|
  {
    if es != [] {
      var s1 := AppendToLog(s, es[0], ok);
      var r := AppendAll(s1, es[1..], ok);
      assert AppendAll(s, es, ok) == r;
      assert s1.attempts <= r.attempts;
      AppendAllFail(s, es[0], ok);
      AppendAllFailGrows(s1, es[1..], ok);
      assert Lines(es) == [Format(es[0])] + Lines(es[1..]);
      Regroup([], s.backlog, [Format(es[0])], Lines(es[1..]));
    }
  }

  /** Once every write succeeds, a non-empty run of calls writes the whole backlog and all its records, in order. */
  lemma {:induction false} AppendAllSucceedDelivers(s: Logger, es: seq<Entry>, ok: Oracle)
    requires es != []
    requires forall i :: i >= s.attempts ==> ok(i)
    ensures AppendAll(s, es, ok).log == s.log + s.backlog + Lines(es)
    ensures AppendAll(s, es, ok).backlog == []
    decreases |es|
  {
    var s1 := AppendToLog(s, es[0], ok);
    AppendAllSucceed(s, es[0], ok);
    assert Lines(es) == [Format(es[0])] + Lines(es[1..]);
    if es[1..] != [] {
      AppendAllSucceedDelivers(s1, es[1..], ok);
    }
  }

  /** Regrouping the pieces of a log. */
  lemma Regroup(a: seq<string>, b: seq<string>, c: seq<string>, d: seq<string>)
    ensures a + (b + c) + d == a + b + c + d
    ensures a + b + (c + d) == a + b + c + d
  {
  }

  /**
   * Recovery, stated on the two phases: calls made while the log cannot be
   * written only buffer their records; the first call once it can be written
   * delivers the backlog, and every record after it, in submission order.
   */
  lemma RecoveryPhases(s: Logger, before: seq<Entry>, after: seq<Entry>, ok: Oracle)
    requires after != []
    requires forall i :: s.attempts <= i < AppendAll(s, before, ok).attempts ==> !ok(i)
    requires forall i :: i >= AppendAll(s, before, ok).attempts ==> ok(i)
    ensures AppendAll(AppendAll(s, before, ok), after, ok).log == s.log + s.backlog + Lines(before) + Lines(after)
    ensures AppendAll(AppendAll(s, before, ok), after, ok).backlog == []
  {
    var mid := AppendAll(s, before, ok);
    AppendAllFailGrows(s, before, ok);
    AppendAllSucceedDelivers(mid, after, ok);
    Regroup(s.log, s.backlog, Lines(before), Lines(after));
  }

  /**
   * Recovery: if the log is unavailable for the first K calls and available
   * from then on (with at least one call after), the log ends up holding
   * the old backlog and every record, in submission order, each once.
   */
  lemma Recovery(s: Logger, before: seq<Entry>, after: seq<Entry>, ok: Oracle)
    requires after != []
    requires forall i :: s.attempts <= i < AppendAll(s, before, ok).attempts ==> !ok(i)
    requires forall i :: i >= AppendAll(s, before, ok).attempts ==> ok(i)
    ensures AppendAll(s, before + after, ok).log == s.log + s.backlog + Lines(before + after)
    ensures AppendAll(s, before + after, ok).backlog == []
  {
    AppendAllSplit(s, before, after, ok);
    RecoveryPhases(s, before, after, ok);
    LinesAppend(before, after);
    Regroup(s.log, s.backlog, Lines(before), Lines(after));
  }

  /** A pass over a single entry writes it or keeps it, according to its one attempt. */
  lemma SelectOne(x: string, first: nat, ok: Oracle)
    ensures Written([x], first, ok) == (if ok(first) then [x] else [])
    ensures Kept([x], first, ok) == (if ok(first) then [] else [x])
  {
    assert [x][1..] == [];
    assert Select([x], first, ok, true) == (if ok(first) then [x] else []) + Select([], first + 1, ok, true);
    assert Select([x], first, ok, false) == (if ok(first) then [] else [x]) + Select([], first + 1, ok, false);
  }

  /** With an empty backlog and two failing attempts, a call only buffers its record. */
  lemma BufferedCall(s: Logger, e: Entry, ok: Oracle)
    requires s.backlog == [] && !ok(s.attempts) && !ok(s.attempts + 1)
    ensures AppendToLog(s, e, ok) == Logger(s.log, [Format(e)], s.attempts + 2)
  {
    FlushEmpty(s, ok);
    SelectOne(Format(e), s.attempts + 1, ok);
    assert s.backlog + [Format(e)] == [Format(e)];
    assert s.log + [] == s.log;
  }

  /** With one record pending, a failing flush and a succeeding direct write log the new record ahead of it. */
  lemma OvertakingCall(s: Logger, e: Entry, ok: Oracle)
    requires |s.backlog| == 1 && !ok(s.attempts) && ok(s.attempts + 1)
    ensures AppendToLog(s, e, ok) == Logger(s.log + [Format(e)], s.backlog, s.attempts + 2)
  {
    assert s.backlog == [s.backlog[0]];
    SelectOne(s.backlog[0], s.attempts, ok);
  }

  /** The lines of three entries. */
  lemma LinesThree(a: Entry, b: Entry, c: Entry)
    ensures Lines([a, b, c]) == [Format(a), Format(b), Format(c)]
  {
    assert [a, b, c][1..] == [b, c] && [b, c][1..] == [c] && [c][1..] == [];
    assert Lines([c]) == [Format(c)] + Lines([]);
    assert Lines([b, c]) == [Format(b)] + Lines([c]);
    assert Lines([a, b, c]) == [Format(a)] + Lines([b, c]);
  }

  /** A run of three calls is the three calls one after the other. */
  lemma ThreeCalls(s: Logger, a: Entry, b: Entry, c: Entry, ok: Oracle)
    ensures AppendAll(s, [a, b, c], ok) == AppendToLog(AppendToLog(AppendToLog(s, a, ok), b, ok), c, ok)
  {
    var s1 := AppendToLog(s, a, ok);
    var s2 := AppendToLog(s1, b, ok);
    var s3 := AppendToLog(s2, c, ok);
    assert [a, b, c][1..] == [b, c] && [b, c][1..] == [c] && [c][1..] == [];
    assert AppendAll(s3, [], ok) == s3;
    assert AppendAll(s2, [c], ok) == AppendAll(s3, [], ok);
    assert AppendAll(s1, [b, c], ok) == AppendAll(s2, [c], ok);
    assert AppendAll(s, [a, b, c], ok) == AppendAll(s1, [b, c], ok);
  }

  /**
   * Submission order holds in the log only when writability changes between
   * calls. When it changes inside a call, after the opening flush has failed
   * on an older record, the direct write puts the new record ahead of it:
   * with the first three attempts failing, A, B, C are logged as B, A, C.
   */
  lemma MidCallRecoveryReorders(s: Logger, a: Entry, b: Entry, c: Entry, ok: Oracle)
    requires s.backlog == []
    requires forall i: nat :: ok(i) == (i >= s.attempts + 3)
    requires Format(a) != Format(b)
    ensures AppendAll(s, [a, b, c], ok).log == s.log + [Format(b), Format(a), Format(c)]
    ensures AppendAll(s, [a, b, c], ok).backlog == []
    ensures AppendAll(s, [a, b, c], ok).log != s.log + Lines([a, b, c])
  {
    var n := s.attempts;
    assert !ok(n) && !ok(n + 1) && !ok(n + 2) && ok(n + 3);
    BufferedCall(s, a, ok);
    var s1 := AppendToLog(s, a, ok);
    OvertakingCall(s1, b, ok);
    var s2 := AppendToLog(s1, b, ok);
    AppendAllSucceed(s2, c, ok);
    var s3 := AppendToLog(s2, c, ok);
    assert s3.log == s.log + [Format(b), Format(a), Format(c)];
    ThreeCalls(s, a, b, c, ok);
    LinesThree(a, b, c);
    assert (s.log + [Format(b), Format(a), Format(c)])[|s.log|] == Format(b);
    assert (s.log + Lines([a, b, c]))[|s.log|] == Format(a);
  }
}

=== FILE: logging.dfy ===
/**
 * The public text-logging calls of RatScanner's Logger. Each builds a tagged
 * body and hands it to AppendToLog; LogWarning appends two records (the
 * message, then the exception or stack trace), LogError one record holding
 * both, and LogDebug appends only when debug logging is switched on.
 *
 * The clock reading each AppendToLog call takes is a parameter, as are the
 * exception text (absent when no exception was passed), the current stack
 * trace and the debug switch.
 */
module Logging {
  import opened Wrappers
  import opened Records
  import opened DurableLog

  /** The log and backlog together gain exactly `lines`, and nothing already written is removed. */
  ghost predicate Gains(s: Logger, r: Logger, lines: seq<string>)
  {
    && s.log <= r.log
    && multiset(r.log) + multiset(r.backlog) == multiset(s.log) + multiset(s.backlog) + multiset(lines)
  }

  /** The text LogWarning and LogError report: the exception's text when there is one, else the stack trace. */
  function Detail(exception: Option<string>, stackTrace: string): string
  {
    match exception
    case Some(text) => text
    case None => stackTrace
  }

  /** The log line of a tagged record. */
  function TaggedLine(sev: Severity, time: string, message: string): string
  {
    Format(Entry(time, Tag(sev) + message))
  }

  /** AppendToLog of a tagged body, as LogInfo, LogError and LogDebug do. */
  function AppendTagged(s: Logger, sev: Severity, time: string, message: string, ok: Oracle): (r: Logger)
    ensures r.attempts > s.attempts
    ensures Gains(s, r, [TaggedLine(sev, time, message)])
  {
    AppendConserves(s, Entry(time, Tag(sev) + message), ok);
    AppendToLog(s, Entry(time, Tag(sev) + message), ok)
  }

  function LogInfo(s: Logger, time: string, message: string, ok: Oracle): (r: Logger)
    ensures r.attempts > s.attempts
    ensures Gains(s, r, [TaggedLine(Info, time, message)])
  {
    AppendTagged(s, Info, time, message, ok)
  }

  function LogWarning(s: Logger, time1: string, time2: string, message: string,
                      exception: Option<string>, stackTrace: string, ok: Oracle): (r: Logger)
    ensures r.attempts > s.attempts + 1
    ensures Gains(s, r, [TaggedLine(Warning, time1, message), Format(Entry(time2, Detail(exception, stackTrace)))])
  {
    var first := Entry(time1, Tag(Warning) + message);
    var second := Entry(time2, Detail(exception, stackTrace));
    var s1 := AppendToLog(s, first, ok);
    AppendConserves(s, first, ok);
    AppendConserves(s1, second, ok);
    assert multiset([Format(first), Format(second)]) == multiset{Format(first)} + multiset{Format(second)};
    AppendToLog(s1, second, ok)
  }

  function LogError(s: Logger, time: string, message: string,
                    exception: Option<string>, stackTrace: string, ok: Oracle): (r: Logger)
    ensures r.attempts > s.attempts
    ensures Gains(s, r, [TaggedLine(Error, time, ErrorText(message, Detail(exception, stackTrace)))])
  {
    AppendTagged(s, Error, time, ErrorText(message, Detail(exception, stackTrace)), ok)
  }

  function LogDebug(s: Logger, enabled: bool, time: string, message: string, ok: Oracle): (r: Logger)
    ensures !enabled ==> r == s
    ensures enabled ==> r.attempts > s.attempts && Gains(s, r, [TaggedLine(Debug, time, message)])
  {
    if enabled then AppendTagged(s, Debug, time, message, ok) else s
  }

  /** A tagged line read back yields its clock reading, its severity and its message. */
  lemma TaggedLineReadBack(sev: Severity, time: string, message: string)
    requires ']' !in time
    ensures Parse(TaggedLine(sev, time, message)) == Some(Entry(time, Tag(sev) + message))
    ensures Classify(Parse(TaggedLine(sev, time, message)).value.content) == Some((sev, message))
  {
    ParseFormat(Entry(time, Tag(sev) + message));
    ClassifyTagged(sev, message);
  }

  /** An error line read back yields its clock reading, the message and the detail, when the message has no line break. */
  lemma ErrorLineReadBack(time: string, message: string, exception: Option<string>, stackTrace: string)
    requires ']' !in time && '\n' !in message
    ensures var line := TaggedLine(Error, time, ErrorText(message, Detail(exception, stackTrace)));
            && Parse(line).Some?
            && Parse(line).value.time == time
            && Classify(Parse(line).value.content).Some?
            && Classify(Parse(line).value.content).value.0 == Error
            && SplitErrorText(Classify(Parse(line).value.content).value.1) == Some((message, Detail(exception, stackTrace)))
  {
    TaggedLineReadBack(Error, time, ErrorText(message, Detail(exception, stackTrace)));
    SplitErrorTextInverse(message, Detail(exception, stackTrace));
  }

  /** When every write succeeds, LogWarning leaves the backlog drained and the warning line just before the detail line. */
  lemma WarningOrder(s: Logger, time1: string, time2: string, message: string,
                     exception: Option<string>, stackTrace: string, ok: Oracle)
    requires forall i :: i >= s.attempts ==> ok(i)
    ensures var r := LogWarning(s, time1, time2, message, exception, stackTrace, ok);
            && r.log == s.log + s.backlog + [TaggedLine(Warning, time1, message), Format(Entry(time2, Detail(exception, stackTrace)))]
            && r.backlog == []
  {
    var first := Entry(time1, Tag(Warning) + message);
    var second := Entry(time2, Detail(exception, stackTrace));
    var s1 := AppendToLog(s, first, ok);
    AppendAllSucceed(s, first, ok);
    AppendAllSucceed(s1, second, ok);
  }
}

=== FILE: records.dfy ===
/**
 * The text records of the RatScanner log: the severity tags the public
 * logging calls put in front of a message, and the line format every record
 * is written in, `[<time-of-day>] > <content>\n`.
 *
 * Each formatting function comes with its inverse (`Parse`, `Classify`,
 * `SplitErrorText`) and a lemma in each direction, so a tagged record written
 * to the log determines the time, the severity and the message it was made
 * from. An untagged record (the detail line of a warning) determines its
 * time and text only.
 */
module Records {
  import opened Wrappers

  /** The four severities of the logger's public entry points. */
  datatype Severity = Info | Warning | Error | Debug

  /** A record before formatting: the time of day it was stamped with and its body. */
  datatype Entry = Entry(time: string, content: string)

  /** The tag each public entry point puts in front of the message (note the two spaces after Info). */
  function Tag(sev: Severity): (t: string)
    ensures |t| >= 8 && t[0] == '[' && ']' in t && t[|t| - 1] == ' '
  {
    match sev
    case Info => "[Info]  "
    case Warning => "[Warning] "
    case Error => "[Error] "
    case Debug => "[Debug] "
  }

  /** The dashes LogError puts between the message and the exception text. */
  const Divider: string := "--------------------"

  /** The line break, divider and indent LogError puts between the message and the detail. */
  const Separator: string := "\n " + Divider + " \n "

  /** What LogError writes after its tag: the message, a divider line and the detail. */
  function ErrorText(message: string, detail: string): (text: string)
    ensures |Separator| == 25
    ensures |text| == |message| + |Separator| + |detail|
    ensures text[..|message|] == message
    ensures text[|message|..|message| + |Separator|] == Separator
    ensures text[|message| + |Separator|..] == detail
  {
    message + "\n " + Divider + " \n " + detail
  }

  /**
   * Splits an error text at its first line break into the message and the
   * detail, checking that the divider line follows.
   */
  function SplitErrorText(text: string): (r: Option<(string, string)>)
    ensures r.Some? ==> '\n' !in r.value.0
  {
    var k := FirstIndex(text, '\n');
    if k + |Separator| <= |text| && text[k..k + |Separator|] == Separator then
      assert forall i :: 0 <= i < k ==> text[..k][i] == text[i];
      Some((text[..k], text[k + |Separator|..]))
    else None
  }

  /** A message without line breaks and its detail are recovered from the error text. */
  lemma SplitErrorTextInverse(message: string, detail: string)
    requires '\n' !in message
    ensures SplitErrorText(ErrorText(message, detail)) == Some((message, detail))
  {
    var text := ErrorText(message, detail);
    var k := FirstIndex(text, '\n');
    assert text[|message|] == Separator[0] == '\n';
    forall i | 0 <= i < |message|
      ensures text[i] != '\n'
    {
      assert text[i] == text[..|message|][i] == message[i];
    }
    assert k == |message|;
  }

  /** Every text `SplitErrorText` accepts is exactly the error text of what it returns. */
  lemma ErrorTextSplit(text: string)
    requires SplitErrorText(text).Some?
    ensures ErrorText(SplitErrorText(text).value.0, SplitErrorText(text).value.1) == text
  {
    var k := FirstIndex(text, '\n');
    assert text == text[..k] + text[k..k + |Separator|] + text[k + |Separator|..];
  }

  /** Two errors whose messages have no line break write the same text only if message and detail agree. */
  lemma ErrorTextInjective(m1: string, d1: string, m2: string, d2: string)
    requires '\n' !in m1 && '\n' !in m2
    requires ErrorText(m1, d1) == ErrorText(m2, d2)
    ensures m1 == m2 && d1 == d2
  {
    SplitErrorTextInverse(m1, d1);
    SplitErrorTextInverse(m2, d2);
  }

  /** The line the logger appends to the log file for one record. */
  function Format(e: Entry): (text: string)
    ensures |text| == |e.time| + |e.content| + 6
    ensures text[0] == '[' && text[|text| - 1] == '\n'
    ensures text[1..1 + |e.time|] == e.time
    ensures text[1 + |e.time|..|e.time| + 5] == "] > "
    ensures text[|e.time| + 5..|text| - 1] == e.content
  {
    "[" + e.time + "] > " + e.content + "\n"
  }

  /** Index of the first occurrence of `c` in `s`, or `|s|` when there is none. */
  function FirstIndex(s: string, c: char): (k: nat)
    ensures k <= |s|
    ensures k < |s| ==> s[k] == c
    ensures forall i :: 0 <= i < k ==> s[i] != c
  {
    if s == [] then 0
    else if s[0] == c then 0
    else 1 + FirstIndex(s[1..], c)
  }

  /**
   * Reads a log line back into its time and content: the time runs from the
   * opening `[` to the first `]`, which must be followed by `] > `; the
   * content runs from there to the final newline.
   */
  function Parse(text: string): (r: Option<Entry>)
    ensures r.Some? ==> ']' !in r.value.time
  {
    if |text| == 0 || text[0] != '[' then None
    else
      var k := FirstIndex(text, ']');
      if k + 5 <= |text| && text[k..k + 4] == "] > " && text[|text| - 1] == '\n' then
        assert forall i :: 0 <= i < k - 1 ==> text[1..k][i] == text[i + 1];
        Some(Entry(text[1..k], text[k + 4..|text| - 1]))
      else None
  }

  /** A time of day without `]` (as every formatted clock reading is) survives formatting. */
  lemma ParseFormat(e: Entry)
    requires ']' !in e.time
    ensures Parse(Format(e)) == Some(e)
  {
    var text := Format(e);
    var k := FirstIndex(text, ']');
    assert text[1 + |e.time|] == ']';
    forall i | 0 <= i < 1 + |e.time|
      ensures text[i] != ']'
    {
      if i > 0 {
        assert text[i] == e.time[i - 1];
      }
    }
    assert k == 1 + |e.time|;
    assert text[k..k + 4] == "] > ";
  }

  /** Every line `Parse` accepts is exactly the formatting of what it returns. */
  lemma FormatParse(text: string)
    requires Parse(text).Some?
    ensures Format(Parse(text).value) == text
  {
  }

  /** Splits a record body into the severity whose tag starts it and the message after the tag. */
  function Classify(body: string): (r: Option<(Severity, string)>)
    ensures r.Some? ==> Tag(r.value.0) <= body
  {
    if Tag(Info) <= body then Some((Info, body[|Tag(Info)|..]))
    else if Tag(Warning) <= body then Some((Warning, body[|Tag(Warning)|..]))
    else if Tag(Error) <= body then Some((Error, body[|Tag(Error)|..]))
    else if Tag(Debug) <= body then Some((Debug, body[|Tag(Debug)|..]))
    else None
  }

  /** No tag is a prefix of a body carrying a different tag: the tags differ in their second character. */
  lemma TagsDisjoint(s1: Severity, s2: Severity, m: string)
    requires s1 != s2
    ensures !(Tag(s1) <= Tag(s2) + m)
  {
    assert (Tag(s2) + m)[1] == Tag(s2)[1];
  }

  /** The severity and the message are recovered from any tagged body. */
  lemma ClassifyTagged(sev: Severity, m: string)
    ensures Classify(Tag(sev) + m) == Some((sev, m))
  {
  }

  /** Conversely, a body that classifies is the tag followed by the message. */
  lemma TaggedClassify(body: string)
    requires Classify(body).Some?
    ensures Tag(Classify(body).value.0) + Classify(body).value.1 == body
  {
  }
}

=== FILE: wrappers.dfy ===
/** The optional value used where the logger may produce nothing. */
module Wrappers {

  datatype Option<T> = None | Some(value: T)
}
